=== FILE: README.md ===
# Chat backend: presence, friends and messages, in Dafny

This project models the state logic of a two-party chat backend. It covers three parts.

- **The socket server** (`backend/index.js`). The `onlineUsers` map records, for each user id, the set of
  that user's live socket ids. The connection handler registers a socket under the `userId` of its
  handshake. The `join` handler subscribes the socket to a room and emits nothing. The `send_message`,
  `typing` and `stopTyping` handlers relay an event to a room. The
  disconnect handler removes the socket. When it was the user's last socket, the handler deletes the entry
  and writes the user's `lastSeen` time.
- **The friend routes** (`backend/routes/friendRoute.js`). `/friend/add` runs a fixed series
  of guards: required field, case-insensitive self check, lookup by lower-cased username, and an "already
  friends" check. `/friend/remove` has no required-field guard: it lower-cases the field first, then runs
  the self check and the lookup. A successful call updates both users' `friends` lists.
  `/friend/:id` reports a user and reads its `isOnline` flag from `onlineUsers`.
- **The message routes** (`backend/routes/messageRoute.js`). `/message/send` validates the request and
  stores one message from the authenticated user. `/message/history/:receiverId` returns the
  conversation between two users in timestamp order. `/message/:id` lets only the sender delete a message.

Everything is functional. Every handler is a pure function. It returns a status reply and the new state
of the collection it touches. The socket server's outside actions go into an append-only log of effects
instead of being performed. There are two kinds: an emission to a room, with the exact set of receiving
sockets, and a last-seen write.

Modules:
- `Common`: `Option`, `Reply` (status code and message), JavaScript truthiness of a string field, and
  ASCII lower-casing.
- `Registry`: the `onlineUsers` map with `Register` and `Deregister`.
- `Presence`: the socket server as a state machine over the live sockets, `onlineUsers`, room
  memberships and the effect log. It also defines the invariant every reachable state keeps.
- `Users`: the user collection, lookup by username, and the `lastSeen` update.
- `Friends`: the three friend handlers and the friend-graph invariant.
- `Messages`: the message collection and the three message handlers.
- `System`: carries the effect log into the user collection and connects disconnects to what
  `/friend/:id` reports.

Behaviour of the code worth noting:
- A connection is not subscribed to a room named after its own user id. Only `join` adds a socket to a
  room (`Presence.ConnectionJoinsNoRoom`).
- `join` sends no acknowledgement back (`Presence.OnJoin` leaves the log alone).
- The socket `send_message` relay stores nothing. It forwards the client-supplied `senderId`, which is
  not checked against the socket's own user id. Only the HTTP route `/message/send` stores messages, and it
  always uses the authenticated user as the sender.
- `/friend/remove` has no required-field guard. A missing `usernameToRemove` throws inside the `try`
  block when it is lower-cased, so the reply is 500 "Server error".
- `/friend/remove` answers 200 even when the two users were not friends.
- The disconnect handler awaits the last-seen write without any error handling. A failed write is an
  unhandled rejection of the listener: it is neither logged nor answered. The model's write always
  succeeds (see `Presence.OnDisconnect` under "## Left out").

The transport itself removes a closing socket from every room. The source relies on this without saying
so, and `Presence.OnDisconnect` models it explicitly. The transport also opens only fresh socket ids and
delivers events only from live sockets. These facts are the preconditions of the `Presence` handlers.
The user schema stores usernames lower-cased and unique (backend/models/userModel.js:5). The token
middleware (`authenticateToken.js` is not part of this model) is assumed to hand each friend route an
existing user document, on which the routes call `save()`. These facts and this assumption are the preconditions of the `Friends`
handlers (`Users.WellFormed`, `me in users`). The delete route relies on message ids being unique in the
collection (`Messages.Valid`).

## Model

| member | source | states |
|---|---|---|
| Common.LowerChar | backend/routes/friendRoute.js:18 | Lower-casing one character maps A–Z to a–z and leaves every other character unchanged |
| Common.Lower | backend/routes/friendRoute.js:18 | `toLowerCase` keeps the length, lower-cases each position, and yields a string with no upper-case letter |
| Common.LowerOfLower | backend/models/userModel.js:5 | A stored (already lower-case) username is unchanged by lower-casing |
| Common.LowerIdempotent | backend/routes/friendRoute.js:22 | Lower-casing twice is lower-casing once |
| Registry.Register | backend/index.js:49-55 | After connecting, the user is a key and holds exactly its old sockets plus this one; no other user changes; the map never gains an empty entry |
| Registry.Deregister | backend/index.js:74-86 | An absent user changes nothing and gives no offline signal. Otherwise only this (user, socket) pair goes away. The entry is deleted and the offline signal raised exactly when no socket remains |
| Registry.RegisterIdempotent | backend/index.js:51-54 | Registering the same socket id twice equals registering it once |
| Registry.DeregisterUnknownIsNoop | backend/index.js:77-79 | Disconnecting a socket the user does not hold, or a user with no entry, leaves the map unchanged and raises no offline signal |
| Registry.DeregisterUndoesRegister | backend/index.js:49-83 | Disconnecting a freshly registered socket restores the map; the offline signal fires exactly when the user had no other socket |
| Registry.OnlineIffHoldsSocket | backend/index.js:80-81 | With no empty entries, a user is in `onlineUsers` exactly when it holds some socket |
| Presence.InitialInv | backend/index.js:17 | The empty server state satisfies the invariant |
| Presence.OnConnection | backend/index.js:46-55 | The socket becomes live under its handshake `userId` when that value is truthy, and untracked otherwise. A truthy `userId` adds exactly the pair (userId, socket) to `onlineUsers`; a missing or empty one leaves `onlineUsers` unchanged; rooms and log untouched; invariant kept |
| Presence.OnJoin | backend/index.js:57-60 | The socket joins exactly the named room; no other room, no presence state and no log entry changes (no acknowledgement) |
| Presence.OnSendMessage | backend/index.js:62-64 | Appends one `receive_message` emission carrying `{sender: senderId, content}` to exactly the current members of room `receiverId`; nothing else changes |
| Presence.OnTyping | backend/index.js:66-68 | Appends one payload-free `typing` emission to exactly the members of room `to`; nothing else changes |
| Presence.OnStopTyping | backend/index.js:70-72 | Appends one payload-free `stopTyping` emission to exactly the members of room `to`; nothing else changes |
| Presence.Relay | backend/index.js:62-72 | `io.to(room).emit` delivers to the sockets in the room at that moment, every one of them live in a reachable state; no socket, presence or room state changes and the invariant is kept |
| Presence.DisconnectedHearsNothing | backend/index.js:62-86 | Right after a socket disconnects, no relay to any room delivers to it |
| Presence.LeaveAll | backend/index.js:74-86 | The transport's leave-all on disconnect: the closing socket is in no room afterwards, and every other socket is in exactly the rooms it was in before |
| Presence.OnDisconnect | backend/index.js:74-86 | The socket leaves every room and the live set; every other socket keeps exactly its room memberships. An anonymous socket changes nothing else. Otherwise only its pair is removed, and one last-seen write at `now` is logged exactly when it was the user's last socket. Invariant kept |
| Presence.StepKeepsInv | backend/index.js:45-86 | Every handler keeps the invariant: no empty entry, entries match live sockets, rooms hold only live sockets |
| Presence.RunKeepsInv | backend/index.js:45-86 | Any run the transport can deliver keeps the invariant and only appends to the effect log |
| Presence.PresenceIsLiveSockets | backend/index.js:49-55 | In a reachable state, a user is online exactly when a live socket was opened with its id |
| Presence.DisconnectOtherSocketsRemain | backend/index.js:77-80 | Closing one of several sockets keeps the user online, removes only that socket, and logs nothing |
| Presence.DisconnectLastSocket | backend/index.js:80-83 | Closing the last socket removes the user and logs exactly one last-seen write, for that user, at `now` |
| Presence.ConnectionJoinsNoRoom | backend/index.js:45-64 | Connecting does not subscribe the socket to its user's room, so a message to that user id reaches nobody until a `join` |
| Presence.JoinThenReceive | backend/index.js:57-64 | After a socket joins a room, a `send_message` to that room is delivered to it |
| Presence.TwoTabs | backend/index.js:45-86 | A user with two sockets stays online until both close; only the second close logs a (single) last-seen write |
| Users.FindByUsername | backend/routes/friendRoute.js:22 | The lookup finds the user with exactly that username, or reports that no user has it |
| Users.WriteLastSeen | backend/index.js:82 | Sets the user's `lastSeen` when it exists; no username, friend list or other user changes |
| Friends.Without | backend/routes/friendRoute.js:59-64 | The filtered list lacks the id, keeps every other id as many times as before, and keeps lists without repeats free of repeats |
| Friends.WithoutAppend | backend/routes/friendRoute.js:59-61 | Filtering distributes over concatenation, so the remaining ids keep their relative order |
| Friends.WithoutAbsent | backend/routes/friendRoute.js:62-64 | Filtering out an id the list does not hold leaves the list unchanged |
| Friends.WithoutIdempotent | backend/routes/friendRoute.js:59-64 | Filtering the same id twice equals filtering it once |
| Friends.StoredNameIsLower | backend/models/userModel.js:5 | A stored username equals its own lower-case form |
| Friends.OtherNameOtherUser | backend/routes/friendRoute.js:18-22 | A user found under a name that differs (ignoring case) from the caller's is not the caller |
| Friends.Befriend | backend/routes/friendRoute.js:31-32 | The two pushes: `me`'s list gains `t` at the end, `t`'s list gains `me` at the end, every other user and every username stay as they were |
| Friends.Unfriend | backend/routes/friendRoute.js:59-64 | The two filters: `t` is filtered out of `me`'s list and `me` out of `t`'s, every other user and every username stay as they were |
| Friends.Add | backend/routes/friendRoute.js:9-42 | The guards run in order: missing/empty field → 400 "Username is required"; self (ignoring case) → 400; no such lower-cased username → 404 "User not found"; already a friend → 400 "Already friends"; each failure changes nothing. Success → 200, both lists gain the other's id, nothing else changes |
| Friends.Remove | backend/routes/friendRoute.js:45-74 | Missing field → 500; self (ignoring case) → 400; unknown username → 404 "User not found"; failures change nothing. Otherwise 200, each user's id is filtered out of the other's list, nothing else changes |
| Friends.Get | backend/routes/friendRoute.js:108-125 | An unknown id → 404 with no user. Otherwise the user's username and lastSeen, with `isOnline` true exactly when the id is a key of `onlineUsers` |
| Friends.AddKeepsGraph | backend/routes/friendRoute.js:27-35 | Add keeps the friend graph symmetric, closed and free of repeated ids |
| Friends.RemoveKeepsGraph | backend/routes/friendRoute.js:59-64 | Remove keeps the friend graph; after success neither user lists the other |
| Friends.BefriendKeepsGraph | backend/routes/friendRoute.js:31-32 | Appending each of two non-friends to the other's list keeps friendships mutual and lists free of repeats |
| Friends.UnfriendKeepsGraph | backend/routes/friendRoute.js:59-64 | Filtering each of two users out of the other's list keeps the graph and leaves neither listing the other |
| Friends.UnfriendTwice | backend/routes/friendRoute.js:59-64 | Filtering the same pair out a second time changes nothing |
| Friends.RemoveTwice | backend/routes/friendRoute.js:45-69 | Repeating a remove answers the same and changes nothing further |
| Friends.UnfriendUndoesBefriend | backend/routes/friendRoute.js:31-64 | Filtering out the ids a befriending appended restores both original lists |
| Friends.RemoveUndoesAdd | backend/routes/friendRoute.js:9-74 | Removing a friend just added succeeds and restores the whole user collection |
| Messages.Send | backend/routes/messageRoute.js:7-28 | A missing/empty receiverId or content → 400, store unchanged. Otherwise 201, exactly one message appended: sender is the authenticated user, receiver and content from the body, timestamp `now`, fresh id. Validity kept |
| Messages.Conversation | backend/routes/messageRoute.js:36-41 | Each message occurs as often as in the store if it is between the two users, and not at all otherwise |
| Messages.ConversationMembers | backend/routes/messageRoute.js:37-40 | A message is in the conversation exactly when it is stored and went from one of the two users to the other |
| Messages.ConversationChronological | backend/routes/messageRoute.js:36-42 | Filtering a store in clock order yields a conversation in clock order |
| Messages.Insert | backend/routes/messageRoute.js:42 | Inserting into a timestamp-ordered list keeps it ordered and adds exactly that message |
| Messages.SortByTime | backend/routes/messageRoute.js:42 | The sorted result is in ascending timestamp order and is a permutation of the input |
| Messages.History | backend/routes/messageRoute.js:31-51 | The history is in ascending timestamp order and holds exactly the messages between the two users, with their stored multiplicities |
| Messages.ConversationSymmetric | backend/routes/messageRoute.js:37-40 | The `$or` filter gives the same sequence for (a, b) and (b, a) |
| Messages.HistorySymmetric | backend/routes/messageRoute.js:36-42 | The history is the same whichever of the two users asks |
| Messages.ConversationStrict | backend/routes/messageRoute.js:36-41 | Filtering a store whose timestamps strictly increase yields a conversation whose timestamps strictly increase |
| Messages.OrderedPermutationUnique | backend/routes/messageRoute.js:42 | When no two messages share a timestamp, any timestamp-ordered permutation of them is the one strictly increasing order, so the sort's result does not depend on how it breaks ties |
| Messages.SortChronological | backend/routes/messageRoute.js:42 | Sorting a list whose timestamps already strictly increase leaves it unchanged |
| Messages.HistoryOfChronologicalStore | backend/routes/messageRoute.js:36-42 | For a store whose timestamps strictly increase, every order the database sort may return is the conversation in stored order, and equals the model's history |
| Messages.SendKeepsChronological | backend/routes/messageRoute.js:16-20 | With a clock that does not run backwards, sending keeps the store in clock order |
| Messages.SendKeepsStrictlyChronological | backend/routes/messageRoute.js:16-20 | With a clock that advances between sends, sending keeps the store's timestamps strictly increasing |
| Messages.SentMessageInHistory | backend/routes/messageRoute.js:16-42 | A sent message appears in both users' histories |
| Messages.FindById | backend/routes/messageRoute.js:55 | Finds a stored message with the id, or reports that none has it |
| Messages.RemoveId | backend/routes/messageRoute.js:65 | Removal drops every message with that id and keeps all others with their multiplicities |
| Messages.Delete | backend/routes/messageRoute.js:53-71 | Unknown id → 404 and another user's message → 403, store unchanged in both. The sender's own message → 200: exactly that one message removed, all others stay, in their stored order, so a store in (strict) clock order stays so. Validity kept |
| Messages.RemoveIdKeepsOrder | backend/routes/messageRoute.js:65 | Removing the messages with an id keeps the survivors' stored order: a (strictly) chronological store stays (strictly) chronological |
| Messages.RemoveOne | backend/routes/messageRoute.js:65-66 | In a valid store, deleting a stored message's id removes exactly one copy of that message and keeps the store valid |
| System.Apply | backend/index.js:82 | A room emission leaves the user collection alone; a last-seen write sets that user's lastSeen and leaves every other user exactly as it was; friend graph kept |
| System.ApplyAll | backend/index.js:74-86 | Carrying out logged effects in order: a user no write names is left exactly as it was, a user written to ends with the time of its last write, usernames and friend lists never change, friend graph kept |
| System.OnlineFlagIsLiveSockets | backend/routes/friendRoute.js:115 | `/friend/:id` reports online exactly when a live socket was opened with that user id |
| System.LastCloseShowsOffline | backend/index.js:80-83 | After the last socket closes and its effects apply, `/friend/:id` reports offline with lastSeen equal to the close time |
| System.OtherCloseShowsOnline | backend/index.js:77-80 | After one of several sockets closes, `/friend/:id` still reports online with unchanged lastSeen |

## Left out

- Express routing, CORS, JSON bodies, the database connection and server start-up
  (backend/index.js:20-43, 90-93) are transport plumbing. A reply is a status code with its message text.
- Database calls in the routes are modelled as map and sequence updates that always succeed. The 500
  "Server error" paths of the `catch` blocks are therefore not modelled. The one exception is
  `/friend/remove` with a missing field, which always throws.
- Presence.OnDisconnect: the last-seen write is modelled as always succeeding. In the source it is
  awaited inside the `disconnect` listener with no `try`/`catch` (backend/index.js:74-86), so a rejected
  write, for example for a handshake `userId` that is not a valid database id, is an unhandled
  rejection: no reply, no log line. The presence update before it has already happened.
- `/friend/add` and `/friend/remove` each save two documents one after the other. A failure between the
  two saves would leave a one-sided friendship. This is not modelled.
- Population and projection (`populate`, `select`) are not modelled. Nor are the `email` and `avatarUrl`
  fields: they change nothing in the logic.
- Password hashing (bcrypt), the login check, token issuance and verification, signup and `/me` are
  calls into code that is not shown. The authenticated user is a parameter, `me`, which must exist in the
  user collection.
- `/friend/list` does nothing beyond a populate. `/friend/search` depends on the database's regular
  expression engine.
- Asynchronous interleaving, including a reconnect racing the awaited last-seen write, is not modelled.
  Each handler is one atomic step, and the write is an effect in the log.
- Clock values (`new Date()`) are opaque natural numbers passed in as `now`.
- Common.Lower: lower-cases ASCII letters only, whereas JavaScript's `toLowerCase` also lower-cases
  other Unicode letters (and can change the length of a string).
- Common.LowerChar: the same restriction for one character: only A–Z are lowered.
- Request fields that are not strings are not modelled. That includes numbers or objects in a JSON body
  and socket payloads that lack a field. Ids that are not valid database ids are not modelled either: in
  a route the database rejects them and the `catch` answers 500, and on the socket path see the
  `Presence.OnDisconnect` line above.
- Presence.OnSendMessage, Presence.OnTyping, Presence.OnStopTyping: an event sent with no payload, or
  with `null`, throws while its parameter is destructured (backend/index.js:62, 66, 70). Nothing catches
  it inside the listener, so nothing is emitted and the error escapes the handler. The model's inputs
  always carry a payload, so this error path is not modelled. A payload that only lacks a field is
  harmless in the source: `io.to(undefined)` reaches no room.
- Friends.Get: user ids are modelled in their `_id.toString()` form (lower-case hexadecimal) and matched
  as exact strings. In the source, `findById`, `findByIdAndUpdate`, `Message.create` and `Message.find`
  convert the string to a database id, so another valid spelling (upper-case hexadecimal) finds the same
  user: `/friend/:id` answers 200 where the model answers 404. `onlineUsers`, however, is keyed by the raw
  handshake string and read with `_id.toString()` (backend/routes/friendRoute.js:115), so a user whose
  sockets connected with another spelling gets its last-seen time written but is never shown online.
  Those spellings are not modelled.
- Message ids come from a counter in the store, standing in for generated database ids.
  `messageModel.js` is not part of this model; messages are assumed to carry the `timestamp` field that
  the history sorts on.
- Messages.SortByTime: the database leaves the order of messages with equal timestamps unspecified. The
  model picks a stable insertion sort. Its contract only promises ascending timestamps and the same
  messages, and the lemmas about the order of a history (`Messages.SortChronological`,
  `Messages.HistoryOfChronologicalStore`) assume strictly increasing timestamps, where every valid sort
  gives the same result (`Messages.OrderedPermutationUnique`). Nothing is promised about the order of
  ties.
- The transport's own per-socket room, named after the socket id, is not modelled.
- Messages.Delete: the model assumes `message.remove()` succeeds. Whether it exists depends on the
  installed Mongoose version, and the package manifest is not part of this model.

=== FILE: common.dfy ===
/** Values shared by every handler of the chat backend: optional request
    fields, HTTP-style replies, JavaScript truthiness of a string field and
    the lower-casing used for case-insensitive username comparison. */
module Common {

  /** A request field or a store lookup that may be absent. */
  datatype Option<+T> = None | Some(value: T)

  /** A user's database id, as the handshake, the token and the request
      bodies carry it. */
  type UserId = string

  /** A clock reading (`new Date()` in the backend), kept opaque. */
  type Time = nat

  /** The status code and `message` text a route handler answers with. */
  datatype Reply = Reply(code: int, message: string)

  /** `if (field)` on a request field that is a string or undefined:
      undefined and the empty string are falsy, every other string is truthy. */
  predicate Truthy(field: Option<string>) {
    field.Some? && field.value != ""
  }

  predicate IsUpper(c: char) {
    'A' <= c <= 'Z'
  }

  /** `toLowerCase` on one character, restricted to ASCII letters. */
  function LowerChar(c: char): (r: char)
    ensures !IsUpper(r)
    ensures IsUpper(c) ==> r != c && r as int - c as int == 32
    ensures !IsUpper(c) ==> r == c
  {
    if IsUpper(c) then (c as int + 32) as char else c
  }

  /** True when no character of `s` is an upper-case ASCII letter, the form
      the user schema stores usernames in. */
  predicate IsLower(s: string) {
    forall i | 0 <= i < |s| :: !IsUpper(s[i])
  }

  /** `s.toLowerCase()`, restricted to ASCII letters. */
  function Lower(s: string): (r: string)
    ensures |r| == |s|
    ensures IsLower(r)
    ensures forall i | 0 <= i < |s| :: r[i] == LowerChar(s[i])
  {
    if s == [] then [] else [LowerChar(s[0])] + Lower(s[1..])
  }

  /** Lower-casing leaves an already lower-case string alone. */
  lemma {:induction false} LowerOfLower(s: string)
    requires IsLower(s)
    ensures Lower(s) == s
  {
    if s != [] {
      assert IsLower(s[1..]) by {
        forall i | 0 <= i < |s[1..]|
          ensures !IsUpper(s[1..][i])
        {
          assert s[1..][i] == s[i + 1];
        }
      }
      LowerOfLower(s[1..]);
    }
  }

  /** Lower-casing is idempotent. */
  lemma LowerIdempotent(s: string)
    ensures Lower(Lower(s)) == Lower(s)
  {
    LowerOfLower(Lower(s));
  }

  /** `a.toLowerCase() === b.toLowerCase()`. */
  predicate SameIgnoringCase(a: string, b: string) {
    Lower(a) == Lower(b)
  }
}

=== FILE: friends.dfy ===
/** The friend routes: `/friend/add` and `/friend/remove`, which run a fixed
    series of guards and then update the friend lists of both users, and
    `/friend/:id`, which reports a user together with its online flag. The
    authenticated caller `me` is the user the token middleware loaded. */
module Friends {
  import opened Common
  import opened Users
  import Registry

  /** A handler's reply and the user collection it leaves behind. */
  datatype Outcome = Outcome(reply: Reply, users: Users)

  /** No id occurs twice in a friend list. */
  predicate Distinct(xs: seq<UserId>) {
    forall i, j | 0 <= i < j < |xs| :: xs[i] != xs[j]
  }

  /** The friend graph the two handlers are meant to keep: friend ids name
      existing users, friendship goes both ways, and no list repeats an id. */
  ghost predicate Graph(users: Users) {
    WellFormed(users) && Mutual(users) && NoRepeats(users)
  }

  /** Every friend id names an existing user that lists the friend back. */
  ghost predicate Mutual(users: Users) {
    forall a, b | a in users && b in users[a].friends :: b in users && a in users[b].friends
  }

  /** No friend list repeats an id. */
  ghost predicate NoRepeats(users: Users) {
    forall a | a in users :: Distinct(users[a].friends)
  }

  /** The user's friend list with one id filtered out
      (`friends.filter(id => id.toString() !== x.toString())`). */
  function Without(xs: seq<UserId>, x: UserId): (r: seq<UserId>)
    ensures x !in r
    ensures forall y | y != x :: multiset(r)[y] == multiset(xs)[y]
    ensures Distinct(xs) ==> Distinct(r)
  {
    if xs == [] then []
    else
      var rest := Without(xs[1..], x);
      assert xs == [xs[0]] + xs[1..];
      assert Distinct(xs) ==> xs[0] !in xs[1..];
      assert Distinct(xs) ==> Distinct(xs[1..]) by {
        if Distinct(xs) {
          forall i, j | 0 <= i < j < |xs[1..]| ensures xs[1..][i] != xs[1..][j] {
            assert xs[1..][i] == xs[i + 1] && xs[1..][j] == xs[j + 1];
          }
        }
      }
      assert forall y :: y in rest ==> multiset(rest)[y] > 0;
      if xs[0] == x then rest else [xs[0]] + rest
  }

  /** Filtering distributes over concatenation: the ids that stay keep their
      relative order. */
  lemma {:induction false} WithoutAppend(a: seq<UserId>, b: seq<UserId>, x: UserId)
    ensures Without(a + b, x) == Without(a, x) + Without(b, x)
  {
    if a != [] {
      assert (a + b)[1..] == a[1..] + b;
      WithoutAppend(a[1..], b, x);
    } else {
      assert a + b == b;
    }
  }

  /** Filtering out an id the list does not hold changes nothing. */
  lemma {:induction false} WithoutAbsent(xs: seq<UserId>, x: UserId)
    requires x !in xs
    ensures Without(xs, x) == xs
  {
    if xs != [] {
      WithoutAbsent(xs[1..], x);
    }
  }

  /** Filtering the same id out twice is filtering it out once. */
  lemma WithoutIdempotent(xs: seq<UserId>, x: UserId)
    ensures Without(Without(xs, x), x) == Without(xs, x)
  {
    WithoutAbsent(Without(xs, x), x);
  }

  /** Lower-casing a stored username returns it unchanged. */
  lemma StoredNameIsLower(users: Users, id: UserId)
    requires WellFormed(users) && id in users
    ensures Lower(users[id].username) == users[id].username
  {
    LowerOfLower(users[id].username);
  }

  /** The user found under a name that differs from the caller's own,
      ignoring case, is not the caller. */
  lemma OtherNameOtherUser(users: Users, me: UserId, name: string, target: UserId)
    requires WellFormed(users) && me in users
    requires !SameIgnoringCase(name, users[me].username)
    requires target in users && users[target].username == Lower(name)
    ensures target != me
  {
    StoredNameIsLower(users, me);
  }

  /** The target the add and remove handlers look up: the user whose
      username is the requested one lower-cased. */
  ghost predicate Named(users: Users, target: UserId, name: string) {
    target in users && users[target].username == Lower(name)
  }

  /** `after` is `before` with `t` appended to `me`'s friends and `me` appended to
      `t`'s friends; every other field and every other user is untouched. */
  ghost predicate Befriended(before: Users, after: Users, me: UserId, t: UserId) {
    && me in before && t in before && me != t
    && after.Keys == before.Keys
    && after[me] == before[me].(friends := before[me].friends + [t])
    && after[t] == before[t].(friends := before[t].friends + [me])
    && forall o | o in before && o != me && o != t :: after[o] == before[o]
  }

  /** `after` is `before` with `t` filtered out of `me`'s friends and `me`
      filtered out of `t`'s friends; everything else is untouched. */
  ghost predicate Unfriended(before: Users, after: Users, me: UserId, t: UserId) {
    && me in before && t in before && me != t
    && after.Keys == before.Keys
    && after[me] == before[me].(friends := Without(before[me].friends, t))
    && after[t] == before[t].(friends := Without(before[t].friends, me))
    && forall o | o in before && o != me && o != t :: after[o] == before[o]
  }

  /** The two pushes of a successful add. */
  function Befriend(users: Users, me: UserId, t: UserId): (r: Users)
    requires me in users && t in users && me != t
    ensures Befriended(users, r, me, t)
    ensures WellFormed(users) ==> WellFormed(r)
  {
    var r := users[me := users[me].(friends := users[me].friends + [t])][t := users[t].(friends := users[t].friends + [me])];
    assert forall id | id in r :: r[id].username == users[id].username;
    r
  }

  /** The two filters of a successful remove. */
  function Unfriend(users: Users, me: UserId, t: UserId): (r: Users)
    requires me in users && t in users && me != t
    ensures Unfriended(users, r, me, t)
    ensures WellFormed(users) ==> WellFormed(r)
  {
    var r := users[me := users[me].(friends := Without(users[me].friends, t))][t := users[t].(friends := Without(users[t].friends, me))];
    assert forall id | id in r :: r[id].username == users[id].username;
    r
  }

  /** POST `/friend/add` with body field `usernameToAdd`. */
  function Add(users: Users, me: UserId, usernameToAdd: Option<string>): (r: Outcome)
    requires WellFormed(users) && me in users
    ensures !Truthy(usernameToAdd) <==> r.reply == Reply(400, "Username is required")
    ensures Truthy(usernameToAdd) && SameIgnoringCase(usernameToAdd.value, users[me].username) ==>
      r.reply == Reply(400, "You can't add yourself")
    ensures r.reply == Reply(404, "User not found") <==>
      && Truthy(usernameToAdd)
      && !SameIgnoringCase(usernameToAdd.value, users[me].username)
      && forall id | id in users :: users[id].username != Lower(usernameToAdd.value)
    ensures r.reply == Reply(400, "Already friends") <==>
      && Truthy(usernameToAdd)
      && !SameIgnoringCase(usernameToAdd.value, users[me].username)
      && exists t :: Named(users, t, usernameToAdd.value) && t in users[me].friends
    ensures r.reply.code == 200 <==>
      && Truthy(usernameToAdd)
      && !SameIgnoringCase(usernameToAdd.value, users[me].username)
      && exists t :: Named(users, t, usernameToAdd.value) && t !in users[me].friends
    ensures r.reply.code != 200 ==> r.users == users
    ensures r.reply.code == 200 ==>
      && r.reply.message == "You are now friends with " + usernameToAdd.value
      && exists t :: Named(users, t, usernameToAdd.value) && Befriended(users, r.users, me, t)
    ensures WellFormed(r.users)
  {
    if !Truthy(usernameToAdd) then
      Outcome(Reply(400, "Username is required"), users)
    else
      var name := usernameToAdd.value;
      if SameIgnoringCase(name, users[me].username) then
        Outcome(Reply(400, "You can't add yourself"), users)
      else
        match FindByUsername(users, Lower(name))
        case None => Outcome(Reply(404, "User not found"), users)
        case Some(t) =>
          if t in users[me].friends then
            Outcome(Reply(400, "Already friends"), users)
          else
            OtherNameOtherUser(users, me, name, t);
            assert Named(users, t, name);
            Outcome(Reply(200, "You are now friends with " + name), Befriend(users, me, t))
  }

  /** POST `/friend/remove` with body field `usernameToRemove`. The handler
      lower-cases the field before any check, so a missing field fails inside
      the `try` and is answered with a server error. */
  function Remove(users: Users, me: UserId, usernameToRemove: Option<string>): (r: Outcome)
    requires WellFormed(users) && me in users
    ensures usernameToRemove.None? <==> r.reply == Reply(500, "Server error")
    ensures usernameToRemove.Some? && SameIgnoringCase(usernameToRemove.value, users[me].username) ==>
      r.reply == Reply(400, "You can't remove yourself")
    ensures r.reply == Reply(404, "User not found") <==>
      && usernameToRemove.Some?
      && !SameIgnoringCase(usernameToRemove.value, users[me].username)
      && forall id | id in users :: users[id].username != Lower(usernameToRemove.value)
    ensures r.reply.code == 200 <==>
      && usernameToRemove.Some?
      && !SameIgnoringCase(usernameToRemove.value, users[me].username)
      && exists t :: Named(users, t, usernameToRemove.value)
    ensures r.reply.code != 200 ==> r.users == users
    ensures r.reply.code == 200 ==>
      && r.reply.message == "You removed " + usernameToRemove.value + " from your friends"
      && exists t :: Named(users, t, usernameToRemove.value) && Unfriended(users, r.users, me, t)
    ensures WellFormed(r.users)
  {
    match usernameToRemove
    case None => Outcome(Reply(500, "Server error"), users)
    case Some(name) =>
      if SameIgnoringCase(name, users[me].username) then
        Outcome(Reply(400, "You can't remove yourself"), users)
      else
        match FindByUsername(users, Lower(name))
        case None => Outcome(Reply(404, "User not found"), users)
        case Some(t) =>
          OtherNameOtherUser(users, me, name, t);
          assert Named(users, t, name);
          Outcome(Reply(200, "You removed " + name + " from your friends"), Unfriend(users, me, t))
  }

  /** What GET `/friend/:id` answers with for a user that exists. */
  datatype FriendView = FriendView(id: UserId, username: string, lastSeen: Time, isOnline: bool)

  datatype Lookup = Lookup(reply: Reply, friend: Option<FriendView>)

  /** GET `/friend/:id`: the user's public fields and whether `onlineUsers`
      has an entry for it. */
  function Get(users: Users, online: Registry.Online, id: UserId): (r: Lookup)
    ensures id !in users <==> r.reply == Reply(404, "Friend not found")
    ensures id !in users <==> r.friend.None?
    ensures id in users ==> r.reply.code == 200
    ensures r.friend.Some? ==>
      && r.friend.value.id == id
      && r.friend.value.username == users[id].username
      && r.friend.value.lastSeen == users[id].lastSeen
      && (r.friend.value.isOnline <==> Registry.IsOnline(online, id))
  {
    if id !in users then
      Lookup(Reply(404, "Friend not found"), None)
    else
      var u := users[id];
      Lookup(Reply(200, ""), Some(FriendView(id, u.username, u.lastSeen, id in online)))
  }

  /** Appending each of two non-friends to the other's list keeps every
      friendship mutual. */
  lemma BefriendKeepsMutual(before: Users, after: Users, me: UserId, t: UserId)
    requires Mutual(before) && Befriended(before, after, me, t)
    ensures Mutual(after)
  {
    forall a, b | a in after && b in after[a].friends
      ensures b in after && a in after[b].friends
    {
      if a != me && a != t {
        assert b in before[a].friends;
      } else if a == me && b != t {
        assert b in before[me].friends;
      } else if a == t && b != me {
        assert b in before[t].friends;
      }
    }
  }

  /** Appending each of two non-friends to the other's list repeats no id. */
  lemma BefriendKeepsNoRepeats(before: Users, after: Users, me: UserId, t: UserId)
    requires NoRepeats(before) && Befriended(before, after, me, t)
    requires t !in before[me].friends && me !in before[t].friends
    ensures NoRepeats(after)
  {
    forall a | a in after ensures Distinct(after[a].friends) {
      if a == me || a == t {
        var xs := before[a].friends;
        var y := if a == me then t else me;
        assert y !in xs;
        assert after[a].friends == xs + [y];
        assert Distinct(xs);
      } else {
        assert after[a] == before[a];
      }
    }
  }

  /** Appending each of two non-friends to the other's list keeps the
      friend graph. */
  lemma BefriendKeepsGraph(before: Users, after: Users, me: UserId, t: UserId)
    requires Graph(before) && WellFormed(after) && Befriended(before, after, me, t)
    requires t !in before[me].friends
    ensures Graph(after)
  {
    assert me !in before[t].friends;
    BefriendKeepsMutual(before, after, me, t);
    BefriendKeepsNoRepeats(before, after, me, t);
  }

  /** A successful add keeps the friend graph: both users now list each
      other, once. */
  lemma AddKeepsGraph(users: Users, me: UserId, usernameToAdd: Option<string>)
    requires Graph(users) && me in users
    ensures Graph(Add(users, me, usernameToAdd).users)
  {
    var r := Add(users, me, usernameToAdd);
    if r.reply.code == 200 {
      var t :| Named(users, t, usernameToAdd.value) && Befriended(users, r.users, me, t);
      BefriendKeepsGraph(users, r.users, me, t);
    }
  }

  /** An id survives the filter exactly when it was in the list and is not
      the one filtered out. */
  lemma WithoutMember(xs: seq<UserId>, x: UserId, y: UserId)
    ensures y in Without(xs, x) <==> y in xs && y != x
  {
    assert y in Without(xs, x) <==> multiset(Without(xs, x))[y] > 0;
    assert y in xs <==> multiset(xs)[y] > 0;
  }

  /** Filtering each of two users out of the other's list keeps every
      remaining friendship mutual. */
  lemma UnfriendKeepsMutual(before: Users, after: Users, me: UserId, t: UserId)
    requires Mutual(before) && Unfriended(before, after, me, t)
    ensures Mutual(after)
  {
    forall a, b | a in after && b in after[a].friends
      ensures b in after && a in after[b].friends
    {
      if a == me {
        WithoutMember(before[me].friends, t, b);
      } else if a == t {
        WithoutMember(before[t].friends, me, b);
      }
      assert b in before[a].friends;
      if b == me {
        WithoutMember(before[me].friends, t, a);
      } else if b == t {
        WithoutMember(before[t].friends, me, a);
      }
    }
  }

  /** Filtering each of two users out of the other's list keeps the friend
      graph, and leaves neither listing the other. */
  lemma UnfriendKeepsGraph(before: Users, after: Users, me: UserId, t: UserId)
    requires Graph(before) && WellFormed(after) && Unfriended(before, after, me, t)
    ensures Graph(after)
    ensures t !in after[me].friends && me !in after[t].friends
  {
    UnfriendKeepsMutual(before, after, me, t);
    forall a | a in after ensures Distinct(after[a].friends) {
      assert Distinct(before[a].friends);
    }
  }

  /** A successful remove keeps the friend graph, and afterwards neither
      user lists the other. */
  lemma RemoveKeepsGraph(users: Users, me: UserId, usernameToRemove: Option<string>)
    requires Graph(users) && me in users
    ensures Graph(Remove(users, me, usernameToRemove).users)
    ensures Remove(users, me, usernameToRemove).reply.code == 200 ==>
      exists t :: Named(users, t, usernameToRemove.value)
        && t !in Remove(users, me, usernameToRemove).users[me].friends
        && me !in Remove(users, me, usernameToRemove).users[t].friends
  {
    var r := Remove(users, me, usernameToRemove);
    if r.reply.code == 200 {
      var t :| Named(users, t, usernameToRemove.value) && Unfriended(users, r.users, me, t);
      UnfriendKeepsGraph(users, r.users, me, t);
    }
  }

  /** Filtering the same two users out of each other's lists a second time
      changes nothing. */
  lemma UnfriendTwice(users: Users, me: UserId, t: UserId)
    requires me in users && t in users && me != t
    ensures Unfriend(Unfriend(users, me, t), me, t) == Unfriend(users, me, t)
  {
    WithoutIdempotent(users[me].friends, t);
    WithoutIdempotent(users[t].friends, me);
  }

  /** Repeating a remove changes nothing more and answers the same. */
  lemma RemoveTwice(users: Users, me: UserId, usernameToRemove: Option<string>)
    requires WellFormed(users) && me in users
    ensures var once := Remove(users, me, usernameToRemove);
      Remove(once.users, me, usernameToRemove) == once
  {
    var once := Remove(users, me, usernameToRemove);
    if once.reply.code == 200 {
      var name := usernameToRemove.value;
      var t := FindByUsername(users, Lower(name)).value;
      assert once.users == Unfriend(users, me, t);
      assert once.users[me].username == users[me].username;
      assert FindByUsername(once.users, Lower(name)) == Some(t);
      UnfriendTwice(users, me, t);
    }
  }

  /** Filtering out what a befriending appended gives back the lists it
      started from. */
  lemma UnfriendUndoesBefriend(before: Users, after: Users, last: Users, me: UserId, t: UserId)
    requires Befriended(before, after, me, t) && Unfriended(after, last, me, t)
    requires t !in before[me].friends && me !in before[t].friends
    ensures last == before
  {
    WithoutAppend(before[me].friends, [t], t);
    WithoutAbsent(before[me].friends, t);
    WithoutAppend(before[t].friends, [me], me);
    WithoutAbsent(before[t].friends, me);
    assert Without([t], t) == [];
    assert Without([me], me) == [];
    assert last[me] == before[me];
    assert last[t] == before[t];
  }

  /** Removing a friend just added restores both friend lists: remove undoes add. */
  lemma RemoveUndoesAdd(users: Users, me: UserId, name: string)
    requires Graph(users) && me in users
    requires Add(users, me, Some(name)).reply.code == 200
    ensures var added := Add(users, me, Some(name)).users;
      var removed := Remove(added, me, Some(name));
      removed.reply.code == 200 && removed.users == users
  {
    var added := Add(users, me, Some(name));
    var t :| Named(users, t, name) && Befriended(users, added.users, me, t);
    assert me !in users[t].friends;
    assert added.users[me].username == users[me].username;
    assert Named(added.users, t, name);
    var removed := Remove(added.users, me, Some(name));
    var t' :| Named(added.users, t', name) && Unfriended(added.users, removed.users, me, t');
    assert t' == t;
    UnfriendUndoesBefriend(users, added.users, removed.users, me, t);
  }
}

=== FILE: messages.dfy ===
/** The message routes: `/message/send` stores one message from the
    authenticated user, `/message/history/:receiverId` returns the
    conversation between two users in chronological order, and
    `/message/:id` deletes a message on behalf of its sender only. The
    message collection is a sequence in insertion order; ids come from a
    counter, standing in for the database's generated ids. */
module Messages {
  import opened Common

  type MessageId = nat

  datatype Message = Message(id: MessageId, sender: UserId, receiver: UserId, content: string, timestamp: Time)

  datatype Store = Store(messages: seq<Message>, nextId: MessageId)

  /** Every stored id is below the counter, no two stored messages share an
      id, and no message is stored twice. */
  ghost predicate Valid(store: Store) {
    && (forall m | m in store.messages :: m.id < store.nextId)
    && (forall x, y | x in store.messages && y in store.messages && x.id == y.id :: x == y)
    && (forall m | m in store.messages :: multiset(store.messages)[m] == 1)
  }

  /** Reply, created message (if any) and store after `/message/send`. */
  datatype Sent = Sent(reply: Reply, data: Option<Message>, store: Store)

  /** POST `/message/send`. The sender is always the authenticated user `me`;
      the body contributes only the receiver and the content. */
  function Send(store: Store, me: UserId, receiverId: Option<string>, content: Option<string>, now: Time): (r: Sent)
    ensures !(Truthy(receiverId) && Truthy(content)) <==> r.reply == Reply(400, "Receiver ID and content are required")
    ensures r.reply.code == 400 || r.reply == Reply(201, "Message sent")
    ensures r.reply.code == 400 ==> r.store == store && r.data.None?
    ensures r.reply.code == 201 ==>
      && r.data.Some?
      && r.store.messages == store.messages + [r.data.value]
      && r.data.value.sender == me
      && r.data.value.receiver == receiverId.value
      && r.data.value.content == content.value
      && r.data.value.timestamp == now
    ensures r.reply.code == 201 && Valid(store) ==>
      forall m | m in store.messages :: m.id != r.data.value.id
    ensures Valid(store) ==> Valid(r.store)
  {
    if !Truthy(receiverId) || !Truthy(content) then
      Sent(Reply(400, "Receiver ID and content are required"), None, store)
    else
      var m := Message(store.nextId, me, receiverId.value, content.value, now);
      Sent(Reply(201, "Message sent"), Some(m), Store(store.messages + [m], store.nextId + 1))
  }

  /** The message went from one of the two users to the other. */
  predicate Between(m: Message, a: UserId, b: UserId) {
    (m.sender == a && m.receiver == b) || (m.sender == b && m.receiver == a)
  }

  /** The messages exchanged by `a` and `b`, in stored order (the `$or`
      query of the history route). */
  function Conversation(msgs: seq<Message>, a: UserId, b: UserId): (r: seq<Message>)
    ensures forall m :: multiset(r)[m] == if Between(m, a, b) then multiset(msgs)[m] else 0
  {
    if msgs == [] then []
    else
      assert msgs == [msgs[0]] + msgs[1..];
      if Between(msgs[0], a, b) then [msgs[0]] + Conversation(msgs[1..], a, b) else Conversation(msgs[1..], a, b)
  }

  /** The conversation holds exactly the messages between the two users. */
  lemma ConversationMembers(msgs: seq<Message>, a: UserId, b: UserId)
    ensures forall m :: m in Conversation(msgs, a, b) <==> m in msgs && Between(m, a, b)
  {
    var r := Conversation(msgs, a, b);
    forall m ensures m in r <==> m in msgs && Between(m, a, b) {
      assert m in r <==> multiset(r)[m] > 0;
      assert m in msgs <==> multiset(msgs)[m] > 0;
    }
  }

  /** A message no later than everything after it, in front of a
      chronological sequence, keeps it chronological. */
  lemma ChronologicalCons(x: Message, ys: seq<Message>)
    requires Chronological(ys)
    requires forall y | y in ys :: x.timestamp <= y.timestamp
    ensures Chronological([x] + ys)
  {
    var zs := [x] + ys;
    forall i, j | 0 <= i < j < |zs| ensures zs[i].timestamp <= zs[j].timestamp {
      assert zs[j] == ys[j - 1];
      if i > 0 {
        assert zs[i] == ys[i - 1];
      }
    }
  }

  /** A message no later than the first of a chronological sequence can go
      in front of it. */
  lemma ChronologicalPrepend(x: Message, ys: seq<Message>)
    requires Chronological(ys)
    requires ys == [] || x.timestamp <= ys[0].timestamp
    ensures Chronological([x] + ys)
  {
    if ys != [] {
      ChronologicalTail(ys);
    }
    ChronologicalCons(x, ys);
  }

  /** The tail of a chronological sequence is chronological, and its head is
      no later than anything in the tail. */
  lemma ChronologicalTail(xs: seq<Message>)
    requires Chronological(xs) && xs != []
    ensures Chronological(xs[1..])
    ensures forall y | y in xs[1..] :: xs[0].timestamp <= y.timestamp
  {
    forall y | y in xs[1..] ensures xs[0].timestamp <= y.timestamp {
      var k :| 0 <= k < |xs[1..]| && xs[1..][k] == y;
      assert xs[k + 1] == y;
    }
  }

  /** Filtering a chronological store keeps the conversation chronological. */
  lemma {:induction false} ConversationChronological(msgs: seq<Message>, a: UserId, b: UserId)
    requires Chronological(msgs)
    ensures Chronological(Conversation(msgs, a, b))
  {
    if msgs != [] {
      ChronologicalTail(msgs);
      ConversationChronological(msgs[1..], a, b);
      var rest := Conversation(msgs[1..], a, b);
      if Between(msgs[0], a, b) {
        ConversationMembers(msgs[1..], a, b);
        ChronologicalCons(msgs[0], rest);
      }
    }
  }

  /** Timestamps never decrease along the sequence. */
  predicate Chronological(xs: seq<Message>) {
    forall i, j | 0 <= i < j < |xs| :: xs[i].timestamp <= xs[j].timestamp
  }

  /** Put `m` into a chronological sequence, before the first later message. */
  function Insert(m: Message, xs: seq<Message>): (r: seq<Message>)
    requires Chronological(xs)
    ensures Chronological(r)
    ensures multiset(r) == multiset(xs) + multiset{m}
  {
    if xs == [] || m.timestamp <= xs[0].timestamp then
      ChronologicalPrepend(m, xs);
      [m] + xs
    else
      ChronologicalTail(xs);
      var rest := Insert(m, xs[1..]);
      assert xs == [xs[0]] + xs[1..];
      assert forall y | y in rest :: xs[0].timestamp <= y.timestamp by {
        forall y | y in rest ensures xs[0].timestamp <= y.timestamp {
          assert multiset(rest)[y] > 0;
        }
      }
      ChronologicalCons(xs[0], rest);
      [xs[0]] + rest
  }

  /** `.sort({ timestamp: 1 })`: insertion sort by timestamp. */
  function SortByTime(xs: seq<Message>): (r: seq<Message>)
    ensures Chronological(r)
    ensures multiset(r) == multiset(xs)
  {
    if xs == [] then []
    else
      assert xs == [xs[0]] + xs[1..];
      Insert(xs[0], SortByTime(xs[1..]))
  }

  /** GET `/message/history/:receiverId` for the authenticated user `me`. */
  function History(store: Store, me: UserId, other: UserId): (r: seq<Message>)
    ensures Chronological(r)
    ensures forall m :: multiset(r)[m] == if Between(m, me, other) then multiset(store.messages)[m] else 0
    ensures forall m :: m in r <==> m in store.messages && Between(m, me, other)
  {
    var r := SortByTime(Conversation(store.messages, me, other));
    assert forall m :: m in r <==> multiset(r)[m] > 0;
    assert forall m :: m in store.messages <==> multiset(store.messages)[m] > 0;
    r
  }

  /** Which two users asked does not matter. */
  lemma {:induction false} ConversationSymmetric(msgs: seq<Message>, a: UserId, b: UserId)
    ensures Conversation(msgs, a, b) == Conversation(msgs, b, a)
  {
    if msgs != [] {
      ConversationSymmetric(msgs[1..], a, b);
    }
  }

  /** The history is the same whichever of the two users asks for it. */
  lemma HistorySymmetric(store: Store, a: UserId, b: UserId)
    ensures History(store, a, b) == History(store, b, a)
  {
    ConversationSymmetric(store.messages, a, b);
  }

  /** Timestamps strictly increase along the sequence: no two messages
      share a clock reading, so the timestamp order is a total order. */
  predicate StrictlyChronological(xs: seq<Message>) {
    forall i, j | 0 <= i < j < |xs| :: xs[i].timestamp < xs[j].timestamp
  }

  /** A message earlier than everything after it, in front of a strictly
      chronological sequence, keeps it strictly chronological. */
  lemma StrictCons(x: Message, ys: seq<Message>)
    requires StrictlyChronological(ys)
    requires forall y | y in ys :: x.timestamp < y.timestamp
    ensures StrictlyChronological([x] + ys)
  {
    var zs := [x] + ys;
    forall i, j | 0 <= i < j < |zs| ensures zs[i].timestamp < zs[j].timestamp {
      assert zs[j] == ys[j - 1];
      if i > 0 {
        assert zs[i] == ys[i - 1];
      }
    }
  }

  /** The tail of a strictly chronological sequence is strictly
      chronological, and its head is earlier than anything in the tail. */
  lemma StrictTail(xs: seq<Message>)
    requires StrictlyChronological(xs) && xs != []
    ensures StrictlyChronological(xs[1..])
    ensures forall y | y in xs[1..] :: xs[0].timestamp < y.timestamp
  {
    forall y | y in xs[1..] ensures xs[0].timestamp < y.timestamp {
      var k :| 0 <= k < |xs[1..]| && xs[1..][k] == y;
      assert xs[k + 1] == y;
    }
  }

  /** Filtering a strictly chronological store keeps the conversation
      strictly chronological. */
  lemma {:induction false} ConversationStrict(msgs: seq<Message>, a: UserId, b: UserId)
    requires StrictlyChronological(msgs)
    ensures StrictlyChronological(Conversation(msgs, a, b))
  {
    if msgs != [] {
      StrictTail(msgs);
      ConversationStrict(msgs[1..], a, b);
      var rest := Conversation(msgs[1..], a, b);
      if Between(msgs[0], a, b) {
        ConversationMembers(msgs[1..], a, b);
        StrictCons(msgs[0], rest);
      }
    }
  }

  /** When no two messages share a timestamp, there is only one way to put
      them in timestamp order: any chronological permutation of a strictly
      chronological sequence is that sequence. So every order a
      `.sort({ timestamp: 1 })` may return is the same one. */
  lemma {:induction false} OrderedPermutationUnique(xs: seq<Message>, ys: seq<Message>)
    requires StrictlyChronological(xs) && Chronological(ys)
    requires multiset(ys) == multiset(xs)
    ensures ys == xs
  {
    assert |ys| == |multiset(ys)| == |multiset(xs)| == |xs|;
    if xs != [] {
      assert ys[0] in multiset(xs);
      var k :| 0 <= k < |xs| && xs[k] == ys[0];
      assert xs[0] in multiset(ys);
      var j :| 0 <= j < |ys| && ys[j] == xs[0];
      assert ys[0].timestamp <= xs[0].timestamp by {
        if j > 0 {
          assert ys[0].timestamp <= ys[j].timestamp;
        }
      }
      assert k == 0;
      assert xs == [xs[0]] + xs[1..];
      assert ys == [ys[0]] + ys[1..];
      assert ys[0] == xs[0];
      assert multiset(ys[1..]) == multiset(ys) - multiset{xs[0]};
      assert multiset(xs[1..]) == multiset(xs) - multiset{xs[0]};
      StrictTail(xs);
      ChronologicalTail(ys);
      OrderedPermutationUnique(xs[1..], ys[1..]);
    }
  }

  /** Sorting a sequence whose timestamps already strictly increase leaves
      it as it is. */
  lemma SortChronological(xs: seq<Message>)
    requires StrictlyChronological(xs)
    ensures SortByTime(xs) == xs
  {
    OrderedPermutationUnique(xs, SortByTime(xs));
  }

  /** When the store was filled with strictly increasing timestamps, every
      order the database sort may return (any chronological permutation `r`
      of the selected messages) is the conversation in stored order, and it
      is also the history this model computes. */
  lemma HistoryOfChronologicalStore(store: Store, me: UserId, other: UserId, r: seq<Message>)
    requires StrictlyChronological(store.messages)
    requires Chronological(r) && multiset(r) == multiset(Conversation(store.messages, me, other))
    ensures r == Conversation(store.messages, me, other)
    ensures History(store, me, other) == r
  {
    var c := Conversation(store.messages, me, other);
    ConversationStrict(store.messages, me, other);
    OrderedPermutationUnique(c, r);
    OrderedPermutationUnique(c, History(store, me, other));
  }

  /** With a clock that does not run backwards, sending keeps the store in
      clock order. */
  lemma SendKeepsChronological(store: Store, me: UserId, receiverId: Option<string>, content: Option<string>, now: Time)
    requires Chronological(store.messages)
    requires forall m | m in store.messages :: m.timestamp <= now
    ensures Chronological(Send(store, me, receiverId, content, now).store.messages)
  {
  }

  /** With a clock that strictly advances between sends, sending keeps the
      store's timestamps strictly increasing. */
  lemma SendKeepsStrictlyChronological(store: Store, me: UserId, receiverId: Option<string>, content: Option<string>, now: Time)
    requires StrictlyChronological(store.messages)
    requires forall m | m in store.messages :: m.timestamp < now
    ensures StrictlyChronological(Send(store, me, receiverId, content, now).store.messages)
  {
  }

  /** A sent message shows up in the history of both of its users. */
  lemma SentMessageInHistory(store: Store, me: UserId, receiverId: Option<string>, content: Option<string>, now: Time)
    requires Send(store, me, receiverId, content, now).reply.code == 201
    ensures var r := Send(store, me, receiverId, content, now);
      && r.data.value in History(r.store, me, receiverId.value)
      && r.data.value in History(r.store, receiverId.value, me)
  {
  }

  /** The first stored message with the given id (`Message.findById`). */
  function FindById(msgs: seq<Message>, id: MessageId): (r: Option<Message>)
    ensures r.None? <==> forall m | m in msgs :: m.id != id
    ensures r.Some? ==> r.value in msgs && r.value.id == id
  {
    if msgs == [] then None
    else if msgs[0].id == id then Some(msgs[0])
    else FindById(msgs[1..], id)
  }

  /** The stored messages other than those with the given id, in order. */
  function RemoveId(msgs: seq<Message>, id: MessageId): (r: seq<Message>)
    ensures forall m :: multiset(r)[m] == if m.id == id then 0 else multiset(msgs)[m]
    ensures forall m :: m in r <==> m in msgs && m.id != id
  {
    if msgs == [] then []
    else
      var rest := RemoveId(msgs[1..], id);
      assert msgs == [msgs[0]] + msgs[1..];
      assert forall m :: m in rest <==> multiset(rest)[m] > 0;
      if msgs[0].id == id then rest else [msgs[0]] + rest
  }

  /** The messages that survive a removal keep their stored order, so a
      store in clock order stays in clock order. */
  lemma {:induction false} RemoveIdKeepsOrder(msgs: seq<Message>, id: MessageId)
    ensures Chronological(msgs) ==> Chronological(RemoveId(msgs, id))
    ensures StrictlyChronological(msgs) ==> StrictlyChronological(RemoveId(msgs, id))
  {
    if msgs != [] {
      RemoveIdKeepsOrder(msgs[1..], id);
      var rest := RemoveId(msgs[1..], id);
      if Chronological(msgs) {
        ChronologicalTail(msgs);
        if msgs[0].id != id {
          ChronologicalCons(msgs[0], rest);
        }
      }
      if StrictlyChronological(msgs) {
        StrictTail(msgs);
        if msgs[0].id != id {
          StrictCons(msgs[0], rest);
        }
      }
    }
  }

  /** Reply and store after a delete request. */
  datatype Deleted = Deleted(reply: Reply, store: Store)

  /** DELETE `/message/:id` by the authenticated user `me`. */
  function Delete(store: Store, me: UserId, id: MessageId): (r: Deleted)
    requires Valid(store)
    ensures (forall m | m in store.messages :: m.id != id) <==> r.reply == Reply(404, "Message not found")
    ensures r.reply == Reply(403, "Unauthorized") <==> exists m | m in store.messages :: m.id == id && m.sender != me
    ensures r.reply == Reply(200, "Message deleted") <==> exists m | m in store.messages :: m.id == id && m.sender == me
    ensures r.reply.code != 200 ==> r.store == store
    ensures r.reply.code == 200 ==>
      && r.store.nextId == store.nextId
      && (forall m :: m in r.store.messages <==> m in store.messages && m.id != id)
      && exists m | m in store.messages && m.id == id ::
           multiset(r.store.messages) == multiset(store.messages) - multiset{m}
    ensures Valid(r.store)
    ensures Chronological(store.messages) ==> Chronological(r.store.messages)
    ensures StrictlyChronological(store.messages) ==> StrictlyChronological(r.store.messages)
  {
    match FindById(store.messages, id)
    case None => Deleted(Reply(404, "Message not found"), store)
    case Some(m) =>
      if m.sender != me then
        Deleted(Reply(403, "Unauthorized"), store)
      else
        RemoveOne(store, m);
        RemoveIdKeepsOrder(store.messages, id);
        Deleted(Reply(200, "Message deleted"), Store(RemoveId(store.messages, id), store.nextId))
  }

  /** Removing the id of a stored message from a valid store takes out that
      one message and keeps the store valid. */
  lemma RemoveOne(store: Store, m: Message)
    requires Valid(store) && m in store.messages
    ensures multiset(RemoveId(store.messages, m.id)) == multiset(store.messages) - multiset{m}
    ensures Valid(Store(RemoveId(store.messages, m.id), store.nextId))
  {
    var rest := RemoveId(store.messages, m.id);
    forall x ensures multiset(rest)[x] == (multiset(store.messages) - multiset{m})[x] {
      if x.id == m.id && x != m {
        assert x !in store.messages;
      }
    }
    assert forall x :: x in rest <==> multiset(rest)[x] > 0;
  }
}

=== FILE: presence.dfy ===
/** The socket server: the connection handler that registers a socket under
    the user id of its handshake, `join`, which subscribes a socket to a
    room, the `send_message`, `typing` and `stopTyping` relays, and the
    disconnect handler that deregisters the
    socket and writes the user's last-seen time when its last socket closes.
    Deliveries and last-seen writes are recorded in an append-only log of
    effects instead of being performed. */
module Presence {
  import opened Common
  import opened Registry

  type RoomId = string
  type Rooms = map<RoomId, set<SocketId>>

  /** The events the server emits to a room. */
  datatype OutEvent =
    | ReceiveMessage(sender: string, content: string)
    | Typing
    | StopTyping

  /** What the server does outside its own state. */
  datatype Effect =
    | Emit(room: RoomId, recipients: set<SocketId>, event: OutEvent)  // `io.to(room).emit(event)`
    | WriteLastSeen(user: UserId, at: Time)                           // `User.findByIdAndUpdate(user, { lastSeen })`

  /** The live sockets with the user id each was opened with (kept by the
      connection closure), the `onlineUsers` map, the room memberships kept
      by the transport, and the effects emitted so far. */
  datatype Server = Server(
    sessions: map<SocketId, Option<UserId>>,
    online: Online,
    rooms: Rooms,
    log: seq<Effect>)

  const Initial: Server := Server(map[], map[], map[], [])

  /** The sockets in a room; a room nobody joined has none. */
  function Members(rooms: Rooms, room: RoomId): set<SocketId> {
    if room in rooms then rooms[room] else {}
  }

  /** The user a socket is tracked under: the handshake's `userId` when it is
      truthy, and no one otherwise. */
  function Identity(query: Option<string>): (r: Option<UserId>)
    ensures r.Some? <==> Truthy(query)
    ensures r.Some? ==> r.value == query.value && r.value != ""
  {
    if Truthy(query) then Some(query.value) else None
  }

  /** The state the handlers keep: no empty entry in `onlineUsers`, a user
      holds a socket in `onlineUsers` exactly when that socket is live and
      was opened with that user id, and only live sockets sit in rooms. */
  ghost predicate Inv(st: Server) {
    && NonEmptyEntries(st.online)
    && (forall u, s :: Holds(st.online, u, s) ==> s in st.sessions && st.sessions[s] == Some(u))
    && (forall s | s in st.sessions && st.sessions[s].Some? :: Holds(st.online, st.sessions[s].value, s))
    && (forall room | room in st.rooms :: st.rooms[room] <= st.sessions.Keys)
  }

  lemma InitialInv()
    ensures Inv(Initial)
  {
  }

  /** `io.on('connection')` for a socket the transport has just opened. */
  function OnConnection(st: Server, sid: SocketId, query: Option<string>): (r: Server)
    requires sid !in st.sessions
    ensures r.sessions == st.sessions[sid := Identity(query)]
    ensures Truthy(query) ==> Holds(r.online, query.value, sid) && IsOnline(r.online, query.value)
    ensures Truthy(query) ==> forall u, s :: Holds(r.online, u, s) <==> Holds(st.online, u, s) || (u == query.value && s == sid)
    ensures !Truthy(query) ==> r.online == st.online
    ensures r.rooms == st.rooms && r.log == st.log
    ensures Inv(st) ==> Inv(r)
  {
    var who := Identity(query);
    var online := if who.Some? then Register(st.online, who.value, sid) else st.online;
    st.(sessions := st.sessions[sid := who], online := online)
  }

  /** `socket.on('join')`: the socket enters the room; nothing is sent back. */
  function OnJoin(st: Server, sid: SocketId, room: RoomId): (r: Server)
    requires sid in st.sessions
    ensures Members(r.rooms, room) == Members(st.rooms, room) + {sid}
    ensures forall other | other != room :: Members(r.rooms, other) == Members(st.rooms, other)
    ensures r.sessions == st.sessions && r.online == st.online && r.log == st.log
    ensures Inv(st) ==> Inv(r)
  {
    st.(rooms := st.rooms[room := Members(st.rooms, room) + {sid}])
  }

  /** Emit `event` to whoever is in `room` right now. */
  function Relay(st: Server, room: RoomId, event: OutEvent): (r: Server)
    ensures r.log == st.log + [Emit(room, Members(st.rooms, room), event)]
    ensures r.sessions == st.sessions && r.online == st.online && r.rooms == st.rooms
    ensures Inv(st) ==> r.log[|st.log|].recipients <= st.sessions.Keys
    ensures Inv(st) ==> Inv(r)
  {
    st.(log := st.log + [Emit(room, Members(st.rooms, room), event)])
  }

  /** `socket.on('send_message')`: relays the client's `senderId` and
      `content` to room `receiverId`; nothing is stored. */
  function OnSendMessage(st: Server, sid: SocketId, senderId: string, receiverId: RoomId, content: string): (r: Server)
    requires sid in st.sessions
    ensures |r.log| == |st.log| + 1 && r.log[..|st.log|] == st.log
    ensures r.log[|st.log|].Emit? && r.log[|st.log|].room == receiverId
    ensures r.log[|st.log|].recipients == Members(st.rooms, receiverId)
    ensures r.log[|st.log|].event == ReceiveMessage(senderId, content)
    ensures r.sessions == st.sessions && r.online == st.online && r.rooms == st.rooms
  {
    Relay(st, receiverId, ReceiveMessage(senderId, content))
  }

  /** `socket.on('typing')`: a bare `typing` event to room `to`. */
  function OnTyping(st: Server, sid: SocketId, to: RoomId): (r: Server)
    requires sid in st.sessions
    ensures |r.log| == |st.log| + 1 && r.log[..|st.log|] == st.log
    ensures r.log[|st.log|] == Emit(to, Members(st.rooms, to), Typing)
    ensures r.sessions == st.sessions && r.online == st.online && r.rooms == st.rooms
  {
    Relay(st, to, Typing)
  }

  /** `socket.on('stopTyping')`: a bare `stopTyping` event to room `to`. */
  function OnStopTyping(st: Server, sid: SocketId, to: RoomId): (r: Server)
    requires sid in st.sessions
    ensures |r.log| == |st.log| + 1 && r.log[..|st.log|] == st.log
    ensures r.log[|st.log|] == Emit(to, Members(st.rooms, to), StopTyping)
    ensures r.sessions == st.sessions && r.online == st.online && r.rooms == st.rooms
  {
    Relay(st, to, StopTyping)
  }

  /** Every room with `sid` taken out, as the transport does on disconnect. */
  function LeaveAll(rooms: Rooms, sid: SocketId): (r: Rooms)
    ensures forall room :: sid !in Members(r, room)
    ensures forall room, s | s != sid :: s in Members(r, room) <==> s in Members(rooms, room)
  {
    map room | room in rooms :: rooms[room] - {sid}
  }

  /** `socket.on('disconnect')`: the transport drops the socket from every
      room; an anonymous socket stops there; otherwise the socket leaves its
      user's entry, and when that was the user's last socket the entry goes
      and one last-seen write at `now` is issued. */
  function OnDisconnect(st: Server, sid: SocketId, now: Time): (r: Server)
    requires sid in st.sessions
    ensures r.sessions == st.sessions - {sid}
    ensures forall room :: sid !in Members(r.rooms, room)
    ensures forall room, s | s != sid :: s in Members(r.rooms, room) <==> s in Members(st.rooms, room)
    ensures forall u, s :: Holds(r.online, u, s) <==> Holds(st.online, u, s) && !(st.sessions[sid] == Some(u) && s == sid)
    ensures st.sessions[sid].None? ==> r.online == st.online && r.log == st.log
    ensures st.sessions[sid].Some? ==>
      var u := st.sessions[sid].value;
      if u in st.online && st.online[u] - {sid} == {} then
        !IsOnline(r.online, u) && r.log == st.log + [WriteLastSeen(u, now)]
      else
        r.log == st.log && (IsOnline(st.online, u) ==> IsOnline(r.online, u))
    ensures Inv(st) ==> Inv(r)
  {
    var left := st.(sessions := st.sessions - {sid}, rooms := LeaveAll(st.rooms, sid));
    match st.sessions[sid]
    case None => left
    case Some(u) =>
      var gone := Deregister(st.online, u, sid);
      var writes := if gone.wentOffline then [WriteLastSeen(u, now)] else [];
      left.(online := gone.online, log := st.log + writes)
  }

  /** One thing the transport can hand to the server. */
  datatype Input =
    | Connection(sid: SocketId, query: Option<string>)
    | Join(sid: SocketId, room: RoomId)
    | SendMessage(sid: SocketId, senderId: string, receiverId: RoomId, content: string)
    | TypingStarted(sid: SocketId, to: RoomId)
    | TypingStopped(sid: SocketId, to: RoomId)
    | Disconnection(sid: SocketId, now: Time)

  /** The transport opens only fresh socket ids and delivers events only
      from live sockets. */
  predicate Deliverable(st: Server, input: Input) {
    if input.Connection? then input.sid !in st.sessions else input.sid in st.sessions
  }

  function Step(st: Server, input: Input): Server
    requires Deliverable(st, input)
  {
    match input
    case Connection(sid, query) => OnConnection(st, sid, query)
    case Join(sid, room) => OnJoin(st, sid, room)
    case SendMessage(sid, senderId, receiverId, content) => OnSendMessage(st, sid, senderId, receiverId, content)
    case TypingStarted(sid, to) => OnTyping(st, sid, to)
    case TypingStopped(sid, to) => OnStopTyping(st, sid, to)
    case Disconnection(sid, now) => OnDisconnect(st, sid, now)
  }

  /** The state after a run of inputs, or None when the run holds an input
      the transport would never deliver. */
  function Run(st: Server, inputs: seq<Input>): Option<Server>
    decreases |inputs|
  {
    if inputs == [] then Some(st)
    else if !Deliverable(st, inputs[0]) then None
    else Run(Step(st, inputs[0]), inputs[1..])
  }

  /** Every step keeps the invariant. */
  lemma StepKeepsInv(st: Server, input: Input)
    requires Inv(st) && Deliverable(st, input)
    ensures Inv(Step(st, input))
  {
  }

  /** Any run the transport can produce keeps the invariant, and the effect
      log only ever grows at its end. */
  lemma {:induction false} RunKeepsInv(st: Server, inputs: seq<Input>)
    requires Inv(st)
    requires Run(st, inputs).Some?
    ensures Inv(Run(st, inputs).value)
    ensures st.log <= Run(st, inputs).value.log
    decreases |inputs|
  {
    if inputs != [] {
      var next := Step(st, inputs[0]);
      StepKeepsInv(st, inputs[0]);
      assert st.log <= next.log;
      RunKeepsInv(next, inputs[1..]);
    }
  }

  /** Presence is derived from live sockets: in a reachable state a user is
      in `onlineUsers` exactly when some live socket was opened with its id. */
  lemma PresenceIsLiveSockets(st: Server, u: UserId)
    requires Inv(st)
    ensures IsOnline(st.online, u) <==> exists s :: s in st.sessions && st.sessions[s] == Some(u)
  {
    OnlineIffHoldsSocket(st.online, u);
    if IsOnline(st.online, u) {
      var s :| Holds(st.online, u, s);
      assert s in st.sessions && st.sessions[s] == Some(u);
    }
  }

  /** Closing one of several sockets of a user keeps the user online and
      issues no last-seen write. */
  lemma DisconnectOtherSocketsRemain(st: Server, sid: SocketId, now: Time, u: UserId)
    requires Inv(st)
    requires sid in st.sessions && st.sessions[sid] == Some(u)
    requires exists other :: other != sid && Holds(st.online, u, other)
    ensures IsOnline(OnDisconnect(st, sid, now).online, u)
    ensures OnDisconnect(st, sid, now).online[u] == st.online[u] - {sid}
    ensures OnDisconnect(st, sid, now).log == st.log
  {
    var other :| other != sid && Holds(st.online, u, other);
    assert other in st.online[u] - {sid};
  }

  /** Closing the last socket of a user removes the user from `onlineUsers`
      and issues exactly one last-seen write, for that user. */
  lemma DisconnectLastSocket(st: Server, sid: SocketId, now: Time, u: UserId)
    requires Inv(st)
    requires sid in st.sessions && st.sessions[sid] == Some(u)
    requires forall other :: Holds(st.online, u, other) ==> other == sid
    ensures !IsOnline(OnDisconnect(st, sid, now).online, u)
    ensures OnDisconnect(st, sid, now).log == st.log + [WriteLastSeen(u, now)]
  {
    assert Holds(st.online, u, sid);
    assert forall other | other in st.online[u] :: Holds(st.online, u, other);
  }

  /** A closed socket hears nothing more: right after its disconnect, no
      relay to any room lists it among the recipients. */
  lemma DisconnectedHearsNothing(st: Server, sid: SocketId, now: Time, room: RoomId, event: OutEvent)
    requires Inv(st) && sid in st.sessions
    ensures var after := OnDisconnect(st, sid, now);
      sid !in Relay(after, room, event).log[|after.log|].recipients
  {
  }

  /** A user's own room is not joined on connection: until some socket joins
      it, a message sent to the user's id reaches nobody. */
  lemma ConnectionJoinsNoRoom(st: Server, sid: SocketId, u: UserId, sender: SocketId, senderId: string, content: string)
    requires Inv(st) && sid !in st.sessions && u != ""
    requires Members(st.rooms, u) == {}
    requires sender == sid || sender in st.sessions
    ensures OnSendMessage(OnConnection(st, sid, Some(u)), sender, senderId, u, content).log[|st.log|].recipients == {}
  {
  }

  /** After a socket joins a room, a message sent to that room is delivered
      to it. */
  lemma JoinThenReceive(st: Server, sid: SocketId, room: RoomId, sender: SocketId, senderId: string, content: string)
    requires sid in st.sessions && sender in st.sessions
    ensures var joined := OnJoin(st, sid, room);
      sid in OnSendMessage(joined, sender, senderId, room, content).log[|st.log|].recipients
  {
  }

  /** The two-tab scenario: a user opens two sockets and closes them one by
      one. The user stays online until the second closes, and only that
      close writes the last-seen time. */
  lemma TwoTabs(st: Server, u: UserId, c1: SocketId, c2: SocketId, t1: Time, t2: Time)
    requires Inv(st) && u != "" && c1 != c2
    requires c1 !in st.sessions && c2 !in st.sessions
    requires !IsOnline(st.online, u)
    ensures var a := OnConnection(st, c1, Some(u));
      var b := OnConnection(a, c2, Some(u));
      var c := OnDisconnect(b, c1, t1);
      var d := OnDisconnect(c, c2, t2);
      && IsOnline(a.online, u) && IsOnline(b.online, u) && IsOnline(c.online, u)
      && c.log == st.log
      && !IsOnline(d.online, u)
      && d.log == st.log + [WriteLastSeen(u, t2)]
  {
    var a := OnConnection(st, c1, Some(u));
    var b := OnConnection(a, c2, Some(u));
    DisconnectOtherSocketsRemain(b, c1, t1, u) by {
      assert Holds(b.online, u, c2);
    }
    var c := OnDisconnect(b, c1, t1);
    DisconnectLastSocket(c, c2, t2, u) by {
      forall other | Holds(c.online, u, other) ensures other == c2 {
        assert Holds(b.online, u, other);
      }
    }
  }
}

=== FILE: registry.dfy ===
/** The `onlineUsers` map of the socket server: each user id that holds at
    least one live socket maps to the set of that user's socket ids. */
module Registry {
  import opened Common

  type SocketId = string
  type Online = map<UserId, set<SocketId>>

  /** The user `u` is registered with socket `s`. */
  predicate Holds(m: Online, u: UserId, s: SocketId) {
    u in m && s in m[u]
  }

  /** Every entry of the map has at least one socket. */
  predicate NonEmptyEntries(m: Online) {
    forall u | u in m :: m[u] != {}
  }

  /** `onlineUsers.has(u)`: the only notion of presence the server has. */
  predicate IsOnline(m: Online, u: UserId) {
    u in m
  }

  /** The connection handler for a socket that carries a user id: create the
      user's set when absent, then add the socket id to it. */
  function Register(m: Online, u: UserId, s: SocketId): (r: Online)
    ensures r.Keys == m.Keys + {u}
    ensures forall v, t :: Holds(r, v, t) <==> Holds(m, v, t) || (v == u && t == s)
    ensures NonEmptyEntries(m) ==> NonEmptyEntries(r)
  {
    var sockets := if u in m then m[u] else {};
    m[u := sockets + {s}]
  }

  /** What a disconnect leaves behind: the new map, and whether it removed
      the user's last socket (the case that triggers a last-seen write). */
  datatype Departure = Departure(online: Online, wentOffline: bool)

  /** The disconnect handler for a socket that carries a user id: when the
      user has an entry, drop the socket id from it, and delete the entry
      once its set has become empty. */
  function Deregister(m: Online, u: UserId, s: SocketId): (r: Departure)
    ensures u !in m ==> r.online == m && !r.wentOffline
    ensures u in m ==> (r.wentOffline <==> m[u] - {s} == {})
    ensures r.wentOffline <==> u in m && u !in r.online
    ensures r.online.Keys <= m.Keys
    ensures forall v, t :: Holds(r.online, v, t) <==> Holds(m, v, t) && !(v == u && t == s)
    ensures NonEmptyEntries(m) ==> NonEmptyEntries(r.online)
  {
    if u !in m then
      Departure(m, false)
    else
      var rest := m[u] - {s};
      if rest == {} then
        assert forall t | t in m[u] && t != s :: t in rest;
        Departure(m - {u}, true)
      else
        Departure(m[u := rest], false)
  }

  /** Registering the same socket id twice is the same as registering it
      once, because the user's entry is a set. */
  lemma RegisterIdempotent(m: Online, u: UserId, s: SocketId)
    ensures Register(Register(m, u, s), u, s) == Register(m, u, s)
  {
    var once := Register(m, u, s);
    assert once[u] + {s} == once[u];
  }

  /** A disconnect that the registry never heard of (a socket id the user
      does not hold, or a user with no entry) changes nothing and does not
      report the user as gone offline. */
  lemma DeregisterUnknownIsNoop(m: Online, u: UserId, s: SocketId)
    requires NonEmptyEntries(m)
    requires !Holds(m, u, s)
    ensures Deregister(m, u, s) == Departure(m, false)
  {
    if u in m {
      assert m[u] - {s} == m[u];
      assert m[u := m[u]] == m;
    }
  }

  /** Disconnecting a socket right after registering it restores the map it
      was registered into, and reports the user offline exactly when the
      user had no other socket. */
  lemma DeregisterUndoesRegister(m: Online, u: UserId, s: SocketId)
    requires NonEmptyEntries(m)
    requires !Holds(m, u, s)
    ensures Deregister(Register(m, u, s), u, s).online == m
    ensures Deregister(Register(m, u, s), u, s).wentOffline <==> !IsOnline(m, u)
  {
    var r := Deregister(Register(m, u, s), u, s).online;
    assert r.Keys == m.Keys by {
      forall v | v in m ensures v in r {
        var t :| t in m[v];
        assert Holds(m, v, t);
      }
    }
    forall v | v in m ensures r[v] == m[v] {
      assert forall t :: t in r[v] <==> Holds(r, v, t);
      assert forall t :: t in m[v] <==> Holds(m, v, t);
    }
  }

  /** With no empty entries, a user is online exactly when it holds some socket. */
  lemma OnlineIffHoldsSocket(m: Online, u: UserId)
    requires NonEmptyEntries(m)
    ensures IsOnline(m, u) <==> exists s :: Holds(m, u, s)
  {
    if IsOnline(m, u) {
      var s :| s in m[u];
      assert Holds(m, u, s);
    }
  }
}

=== FILE: system.dfy ===
/** How the socket server and the friend routes meet: the last-seen writes
    the disconnect handler issues land in the user collection, and
    `/friend/:id` reads its online flag from the same `onlineUsers` map the
    socket handlers maintain. */
module System {
  import opened Common
  import Registry
  import Presence
  import Users
  import Friends

  /** Carry out one effect against the user collection: a last-seen write
      updates it, a room emission leaves it alone. */
  function Apply(users: Users.Users, e: Presence.Effect): (r: Users.Users)
    ensures e.Emit? ==> r == users
    ensures r.Keys == users.Keys
    ensures e.WriteLastSeen? && e.user in users ==> r[e.user].lastSeen == e.at
    ensures forall id | id in users ::
      r[id].friends == users[id].friends && r[id].username == users[id].username
    ensures forall id | id in users && !(e.WriteLastSeen? && id == e.user) :: r[id] == users[id]
    ensures Friends.Graph(users) ==> Friends.Graph(r)
  {
    match e
    case Emit(_, _, _) => users
    case WriteLastSeen(u, at) => Users.WriteLastSeen(users, u, at)
  }

  /** The effect is a last-seen write for user `id`. */
  predicate WritesFor(e: Presence.Effect, id: UserId) {
    e.WriteLastSeen? && e.user == id
  }

  /** Carry out a run of effects in order: a user no effect writes to stays
      as it was, and a user written to ends with the time of its last write. */
  function ApplyAll(users: Users.Users, effects: seq<Presence.Effect>): (r: Users.Users)
    ensures r.Keys == users.Keys
    ensures forall id | id in users ::
      r[id].friends == users[id].friends && r[id].username == users[id].username
    ensures forall id | id in users && (forall k | 0 <= k < |effects| :: !WritesFor(effects[k], id)) ::
      r[id] == users[id]
    ensures forall id, k | id in users && 0 <= k < |effects| && WritesFor(effects[k], id) &&
        (forall j | k < j < |effects| :: !WritesFor(effects[j], id)) ::
      r[id].lastSeen == effects[k].at
    ensures Friends.Graph(users) ==> Friends.Graph(r)
    decreases |effects|
  {
    if effects == [] then users else ApplyAll(Apply(users, effects[0]), effects[1..])
  }

  /** `/friend/:id` reports a user online exactly when one of its sockets is
      live. */
  lemma OnlineFlagIsLiveSockets(st: Presence.Server, users: Users.Users, id: UserId)
    requires Presence.Inv(st) && id in users
    ensures var view := Friends.Get(users, st.online, id).friend.value;
      view.isOnline <==> exists s :: s in st.sessions && st.sessions[s] == Some(id)
  {
    Presence.PresenceIsLiveSockets(st, id);
  }

  /** Once a user's last socket closes and the effects it issued are carried
      out, `/friend/:id` reports the user offline, last seen at the time of
      the close. */
  lemma LastCloseShowsOffline(st: Presence.Server, users: Users.Users, sid: Registry.SocketId, now: Time, u: UserId)
    requires Presence.Inv(st)
    requires sid in st.sessions && st.sessions[sid] == Some(u)
    requires forall other :: Registry.Holds(st.online, u, other) ==> other == sid
    requires u in users
    ensures var after := Presence.OnDisconnect(st, sid, now);
      var stored := ApplyAll(users, after.log[|st.log|..]);
      Friends.Get(stored, after.online, u).friend == Some(Friends.FriendView(u, users[u].username, now, false))
  {
    Presence.DisconnectLastSocket(st, sid, now, u);
    var after := Presence.OnDisconnect(st, sid, now);
    assert after.log[|st.log|..] == [Presence.WriteLastSeen(u, now)];
  }

  /** Closing one of several sockets issues nothing, so `/friend/:id` still
      reports the user online with its stored last-seen time. */
  lemma OtherCloseShowsOnline(st: Presence.Server, users: Users.Users, sid: Registry.SocketId, now: Time, u: UserId)
    requires Presence.Inv(st)
    requires sid in st.sessions && st.sessions[sid] == Some(u)
    requires exists other :: other != sid && Registry.Holds(st.online, u, other)
    requires u in users
    ensures var after := Presence.OnDisconnect(st, sid, now);
      var stored := ApplyAll(users, after.log[|st.log|..]);
      Friends.Get(stored, after.online, u).friend == Some(Friends.FriendView(u, users[u].username, users[u].lastSeen, true))
  {
    Presence.DisconnectOtherSocketsRemain(st, sid, now, u);
    var after := Presence.OnDisconnect(st, sid, now);
    assert after.log[|st.log|..] == [];
  }
}

=== FILE: users.dfy ===
/** The user collection as the friend routes and the disconnect handler see
    it: a user id maps to the user's lower-cased username, the ids of its
    friends in the order they were added, and its last-seen time. */
module Users {
  import opened Common

  datatype User = User(username: string, friends: seq<UserId>, lastSeen: Time)

  type Users = map<UserId, User>

  /** What the user schema guarantees of the stored documents: usernames are
      lower-cased on save and no two users share one. */
  ghost predicate WellFormed(users: Users) {
    && (forall id | id in users :: IsLower(users[id].username))
    && (forall a, b | a in users && b in users && users[a].username == users[b].username :: a == b)
  }

  /** `User.findOne({ username: name })`. */
  function FindByUsername(users: Users, name: string): (r: Option<UserId>)
    requires WellFormed(users)
    ensures r.Some? ==> r.value in users && users[r.value].username == name
    ensures r.None? ==> forall id | id in users :: users[id].username != name
  {
    if exists id | id in users :: users[id].username == name then
      var id :| id in users && users[id].username == name;
      Some(id)
    else
      None
  }

  /** `User.findByIdAndUpdate(id, { lastSeen: at })`: sets the last-seen time
      of the user with that id, when there is one. */
  function WriteLastSeen(users: Users, id: UserId, at: Time): (r: Users)
    ensures r.Keys == users.Keys
    ensures id in users ==> r[id].lastSeen == at
    ensures forall other | other in users ::
      && r[other].username == users[other].username
      && r[other].friends == users[other].friends
      && (other != id ==> r[other] == users[other])
    ensures WellFormed(users) ==> WellFormed(r)
  {
    if id in users then users[id := users[id].(lastSeen := at)] else users
  }
}
